=== FILE: README.md ===
# gtfo in Dafny

A model of `gtfo.py`, a small library that builds Google Flights search URLs
from chained builder calls. It has two search shapes:

- a **round trip** (`roundtrip().departing(...).returning(...)`): outbound and
  return airport sets with optional dates. Its fragment is
  `search;f=<codes>;t=<codes>[;d=YYYY-MM-DD][;r=YYYY-MM-DD]`, and building it
  never fails;
- an **itinerary** (`itinerary().departing(...).arriving(...)...`): a sequence
  of legs. Each leg has departing airports, arriving airports and an optional
  date. A call amends the open last leg, or starts a new leg when the last one
  is complete, that is, when it has both departing and arriving airports. Its
  fragment is `search;iti=<leg>*<leg>...;tt=m`, each leg written as
  `dep_arr_date`. Building it fails with `InvalidSearch` when a leg has no
  departing airport.

Dates are given as optional year, month and day. None given means no date.
Some given means the missing parts come from today's date.

Every builder call is a pure function returning a new value, as the
original's builder calls return `attr.evolve` copies rather than changing
the search they are called on. Each operation has a partner: the
fragments have readers (`Decode`/`Parse`) with round-trip lemmas, the
itinerary calls have the leg invariant proved over any chain of calls, and
the URL grammars are stated as separate lemmas.

Modules, in dependency order:

| module | file | models |
|---|---|---|
| `Wrappers` | `wrappers.dfy` | `Option` and `Result` |
| `Text` | `text.dfy` | `str.join`, a splitter that inverts it, zero-padded decimal digits |
| `Dates` | `dates.dfy` | `_to_date`, `strftime("%Y-%m-%d")` and a reader for it |
| `AirportSets` | `airport_sets.dfy` | `pset(airports)` and its `","` join |
| `Fragments` | `fragments.dfy` | `_url`: `search;` + `;`-joined `key=value` pairs, and a reader |
| `Legs` | `legs.dfy` | `_Leg`, `InvalidSearch` |
| `Itineraries` | `itineraries.dfy` | `_ItinerarySearch` |
| `Roundtrips` | `roundtrips.dfy` | `_RoundtripFlightSearch` |
| `Fixtures` | `fixtures.dfy` | the URLs recorded in `tests.py`, as lemmas |

Today's date is a parameter (`today: Date`) of every operation that takes
date components. A date is a valid calendar date with a four-digit year (the
subset type `Dates.Date`). An airport set is a duplicate-free sequence in
first-occurrence order.

## Model

| member | source | states |
|---|---|---|
| Dates.ToDate | gtfo.py:160-163 | no date exactly when no component is given; otherwise each component is the given one or today's |
| Dates.ToDatePartsOf | gtfo.py:99-112 | passing all three components of a date rebuilds that date, whatever today is |
| Dates.Format | gtfo.py:60 | `%Y-%m-%d` is ten characters, all digits or `-` |
| Dates.ParseFormat | gtfo.py:60 | the `%Y-%m-%d` rendering of a date reads back as that date |
| Dates.FormatParse | gtfo.py:60 | every string that reads as a date is that date's rendering, so the rendering is one-to-one |
| Dates.FormatAvoids | gtfo.py:60 | a rendered date holds none of `,` `_` `*` `;`, the separators of the URL |
| Text.Join | gtfo.py:23-24 | `sep.join(parts)`; no contract of its own: Text.JoinSplit, Text.SplitJoin and Text.JoinSnoc state it |
| Text.JoinSplit | gtfo.py:23-24 | splitting at a separator and joining again gives the original string |
| Text.SplitJoin | gtfo.py:61-63 | joining a non-empty list of parts that hold no separator, then splitting, gives the parts back |
| Text.JoinSnoc | gtfo.py:24 | joining one more part appends the separator and that part |
| Text.ValuePad | gtfo.py:60 | a number below 10^width written zero-padded to that width reads back as the number |
| Text.PadValue | gtfo.py:60 | a digit string is the zero-padded writing of its value |
| AirportSets.FromCodes | gtfo.py:44 | `pset(airports)` has no duplicates, holds exactly the given codes, and is no longer than the input |
| AirportSets.FromCodesEmpty | gtfo.py:44 | `pset(airports)` is empty exactly when no airport is given |
| AirportSets.Render | gtfo.py:62 | `","`-joined codes; no contract of its own: AirportSets.ParseRender states that it reads back and AirportSets.RenderAvoids the separators it never holds |
| AirportSets.FromDistinctCodes | gtfo.py:54 | codes already distinct are kept as they are, in order |
| AirportSets.UnsafeCodesCollide | gtfo.py:62 | for codes that are empty or hold a separator the rendering is not one-to-one: `["A,B"]` renders as `["A", "B"]` does, and `[""]` renders as no code and reads back as the empty set |
| AirportSets.ParseRender | gtfo.py:62 | for codes that are non-empty and hold none of `,` `_` `*` `;`, the comma-joined codes read back as the same codes; the empty set is the empty string |
| Fragments.Fragment | gtfo.py:22-24 | `search;` then the `key=value` pairs joined by `;`; no contract of its own: Fragments.FragmentSingle, Fragments.FragmentSnoc and Fragments.ParseFragment state its grammar and its reading back |
| Fragments.FragmentSingle | gtfo.py:22-24 | one pair gives `search;key=value` |
| Fragments.FragmentSnoc | gtfo.py:22-24 | one more pair appends `;key=value`, so pair order is kept |
| Fragments.ParseFragment | gtfo.py:22-24 | a fragment of carriable pairs reads back as exactly those pairs, in order |
| Legs.CompleteAfterCalls | gtfo.py:38-40 | `complete` holds of no fresh leg, and of a leg after `departing` then `arriving` exactly when both calls named an airport |
| Legs.Departing | gtfo.py:42-51 | replaces the departing set with the given codes and the date with the merged date; the arriving set is unchanged; no date exactly when no component is given |
| Legs.Arriving | gtfo.py:53-54 | replaces the arriving set with the given codes; departing set and date are unchanged |
| Legs.Parameters | gtfo.py:56-58 | fails exactly when the leg has no departing airport, with `InvalidSearch(leg, "needs a departing airport")` |
| Legs.ParametersShape | gtfo.py:56-63 | a leg with departures is written `dep_arr_date`, the date empty when absent |
| Legs.DecodeParameters | gtfo.py:56-63 | for codes that are non-empty and hold none of `,` `_` `*` `;`, the leg string reads back as the same leg: both airport sets and the date |
| Legs.ParametersAvoid | gtfo.py:61-63 | a leg string holds neither `*` nor `;`, so legs and pairs stay separable |
| Itineraries.WithLastIncompleteLeg | gtfo.py:141-145 | a complete last leg is kept and a fresh empty leg opened; an incomplete last leg is taken off to be amended; the leg handed back is never complete |
| Itineraries.Departing | gtfo.py:131-134 | one leg is appended exactly when the last leg was complete; earlier legs are unchanged; the last leg departs from the pset of the given codes, duplicate-free, on the merged date and keeps its arrivals only when it was open; the all-but-last-complete invariant is preserved |
| Itineraries.Arriving | gtfo.py:136-139 | as `departing`, for the arriving set, also duplicate-free; on a complete last leg the new leg has no departures and no date |
| Itineraries.LegStrings | gtfo.py:148 | all leg strings, in leg order, exactly when every leg has departures; otherwise the error of the first leg without one |
| Itineraries.Parameters | gtfo.py:147-149 | fails exactly when some leg has no departing airport; otherwise the two pairs `iti`, carrying the leg strings in leg order joined by `*`, and then `tt=m`; on failure the error is that of the first leg without departures, with "needs a departing airport" |
| Itineraries.Url | gtfo.py:147-149 | fails exactly when some leg has no departing airport, and the error is `InvalidSearch` naming the first such leg, with "needs a departing airport" |
| Itineraries.UrlShape | gtfo.py:22-24 | the fragment is `search;iti=` + leg strings joined by `*` + `;tt=m` |
| Itineraries.DecodeUrl | gtfo.py:147-149 | for codes that are non-empty and hold none of `,` `_` `*` `;`, the fragment of a search with departures on every leg reads back as the same legs, in order |
| Itineraries.Step | gtfo.py:131-139 | one call adds at most one leg, keeps all legs before the last, and keeps the invariant |
| Itineraries.RunLength | gtfo.py:131-139 | a chain of calls removes no leg and adds at most one leg per call |
| Itineraries.RunKeepsEarlierLegs | gtfo.py:131-145 | a chain of calls never changes a leg before the open one |
| Itineraries.RunKeepsInvariant | gtfo.py:131-145 | a chain of calls keeps every leg but the last complete |
| Itineraries.RunKeepsLegsComplete | gtfo.py:131-145 | from a search whose legs all but the last are complete, any chain of calls keeps that, keeps the earlier legs, and adds at most one leg per call |
| Itineraries.UrlFailsOnlyOnOpenLeg | gtfo.py:126 | after any chain of calls from `itinerary()`, the URL fails exactly when the last leg has no departing airport |
| Itineraries.ArrivingAfterCompleteLegFails | gtfo.py:136-145 | `arriving` after a complete leg opens a leg without departures, and the URL then fails |
| Roundtrips.Departing | gtfo.py:77-86 | replaces the outbound set and date; the return side is unchanged; no date exactly when no component is given |
| Roundtrips.Returning | gtfo.py:88-97 | replaces the return set and date; the outbound side is unchanged |
| Roundtrips.Url | gtfo.py:69 | `_url` over the round-trip pairs; no contract of its own: Roundtrips.UrlShape states its grammar and Roundtrips.DecodeUrl its reading back |
| Roundtrips.Parameters | gtfo.py:114-120 | `f` then `t` always; a `d` pair exactly when there is a departure date and an `r` pair exactly when there is a return date, each carrying the rendered date; `d` comes right after `t` and `r` last |
| Roundtrips.UrlShape | gtfo.py:114-120 | the fragment is `search;f=...;t=...`, then `;d=...` and `;r=...` only for present dates |
| Roundtrips.DecodeDatePairs | gtfo.py:117-120 | the optional date pairs read back as the dates they came from |
| Roundtrips.DecodeUrl | gtfo.py:114-120 | for codes that are non-empty and hold none of `,` `_` `*` `;`, the fragment reads back as the same search, empty sets and absent dates included |
| Roundtrips.Itinerary | gtfo.py:99-112 | the four itinerary calls of `itinerary()`; no contract of its own: Roundtrips.ItineraryLegs and Roundtrips.ItineraryUrlSucceeds state it |
| Roundtrips.ItineraryLegs | gtfo.py:99-112 | with both sets non-empty, the converted itinerary is exactly the outbound leg and the return leg, both complete |
| Roundtrips.ItineraryUrlSucceeds | gtfo.py:99-112 | the URL of the converted itinerary succeeds exactly when both airport sets are non-empty |
| Fixtures.RoundtripFixture | tests.py:13-17 | `departing("JFK").returning("JNB")` gives `search;f=JFK;t=JNB` |
| Fixtures.MultipleAirportsFixture | tests.py:19-27 | four outbound and two return codes are comma-joined in call order |
| Fixtures.RoundtripWithDatesFixture | gtfo.py:114-120 | both dates given as `year`/`month`/`day` give `search;f=JFK;t=JNB;d=2017-09-06;r=2017-10-12` |
| Fixtures.PartialDateFixture | gtfo.py:160-163 | only `day=6`, with today 2017-09-01, gives `;d=2017-09-06` |
| Fixtures.FourCalls | gtfo.py:131-139 | `departing`, `arriving`, `departing`, `arriving` from `itinerary()` with the first two calls naming airports give exactly two legs, each with the pset of its codes and its merged date |
| Fixtures.ItineraryFixture | tests.py:54-66 | the two-leg itinerary gives `search;iti=JFK,EWR_JNB_*JNB_JFK,EWR_;tt=m` |
| Fixtures.ItineraryWithDatesFixture | gtfo.py:131-149 | two legs dated by `year`/`month`/`day` give `search;iti=JFK_JNB_2017-09-05*CPT_JFK,EWR_2017-09-09;tt=m` |
| Fixtures.OneDepartureLegFixture | tests.py:84-88 | a lone departure gives `search;iti=JFK__;tt=m` |
| Fixtures.CannotSkipDepartureFixture | tests.py:97-100 | `itinerary().arriving("JFK")` fails to build its URL |

## Left out

- `_open` and `webbrowser`: opening a browser is I/O.
- `BASE` and `URL.replace`: the base URL is a constant in front of the fragment. The model produces the fragment string only.
- Extra keywords to the builder calls: the model's calls take only airports and date components. In the source, `_Leg.departing` and both round-trip calls hand every keyword other than `year`, `month` and `day` to `attr.evolve` (gtfo.py:42-51, gtfo.py:77-97). A keyword naming another field is accepted and sets that field: `arriving=` on a leg's `departing`, `returning=` or `returning_on=` on the round trip's `departing`, and `departing=` or `departing_on=` on its `returning`. A keyword naming no field raises `TypeError` inside `evolve`. The itinerary's `arriving` passes its keywords to `_Leg.arriving(self, *airports)`, which takes none (gtfo.py:53, gtfo.py:136-139), so any keyword there, `year=` included, raises `TypeError` at that call.
- `on=`: the tests at tests.py:29-52, tests.py:68-82 and tests.py:90-95 pass `on=<date>`, which the code does not read: it reaches `evolve` as an unknown field and raises `TypeError`. Those tests are not modelled. Two fixtures state the same URLs with the dates given as `year`/`month`/`day`, which the code does read.
- `itinerary(**kwargs)` and `roundtrip(**kwargs)`: only the default start values (`Itineraries.Start`, `Roundtrips.Start`) are modelled.
- pset iteration order: `pset` iterates in hash order, which the code does not fix. The model uses first-occurrence order, which is the order the test URLs show.
- Dates.ToDate: an invalid merged date (day 31 in a 30-day month, say) makes `date.replace` raise `ValueError`. This is a precondition (`Resolvable`) rather than an error result.
- Ambiguous codes: the source accepts any string as an airport code. A code that is empty or holds `,` `_` `*` or `;` makes the fragment grammar ambiguous (AirportSets.UnsafeCodesCollide), so the readers' round trips are stated only for codes free of them.
- One day per chain: a chain of calls (`Itineraries.Run`) and the conversion `Roundtrips.Itinerary` take a single `today`. The source calls `date.today()` afresh in each `_to_date` (gtfo.py:163), so calls on either side of midnight can see different days.
- Dates.ToDate: a missing component is taken from today, as `date.replace(year=None)` does in the pure-Python `datetime`. The C `datetime` rejects `None` with `TypeError`, so on that implementation a partial date raises instead.
- Dates.Format: years below 1000 or above 9999 are excluded by the `Date` type. Padding `%Y` below 1000 depends on the platform.
- Roundtrips.Itinerary: requires both dates. The source reads `.year` of an absent date and raises `AttributeError`.
- `InvalidSearch.__str__`: message formatting of the exception is not modelled; the error value carries the leg and the message.
- Legs.Decode, Itineraries.Decode, Roundtrips.Decode, Fragments.Parse, AirportSets.Parse and Dates.Parse have no counterpart in the source. They exist to state the round trips.

=== FILE: airport_sets.dfy ===
/** Airport sets: `pset(airports)` and their comma-joined rendering. */
module AirportSets {
  import opened Text

  predicate NoDuplicates(codes: seq<string>)
  {
    forall i, j :: 0 <= i < j < |codes| ==> codes[i] != codes[j]
  }

  /** `pset(airports)`, iterated in first-occurrence order. */
  function FromCodes(codes: seq<string>): (r: seq<string>)
    ensures NoDuplicates(r)
    ensures forall c :: c in r <==> c in codes
    ensures |r| <= |codes|
  {
    if |codes| == 0 then []
    else
      var init := FromCodes(codes[..|codes| - 1]);
      var last := codes[|codes| - 1];
      assert forall c :: c in codes <==> c in codes[..|codes| - 1] || c == last;
      if last in init then init else init + [last]
  }

  /** A set built from codes that are already distinct keeps them all, in order. */
  lemma {:induction false} FromDistinctCodes(codes: seq<string>)
    requires NoDuplicates(codes)
    ensures FromCodes(codes) == codes
  {
    if |codes| > 0 {
      var init := codes[..|codes| - 1];
      FromDistinctCodes(init);
      assert codes[|codes| - 1] !in init;
      assert init + [codes[|codes| - 1]] == codes;
    }
  }

  /** A set built from at least one code is not empty. */
  lemma FromCodesEmpty(codes: seq<string>)
    ensures |FromCodes(codes)| == 0 <==> |codes| == 0
  {
    if |codes| > 0 {
      assert codes[0] in FromCodes(codes);
    }
  }

  /** A code the URL grammar can carry: non-empty, and free of the
      separators `,`, `_`, `*` and `;`. */
  predicate SafeCode(code: string)
  {
    |code| > 0 && ',' !in code && '_' !in code && '*' !in code && ';' !in code
  }

  predicate Safe(codes: seq<string>)
  {
    forall i :: 0 <= i < |codes| ==> SafeCode(codes[i])
  }

  /** `",".join(airports)`. */
  function Render(codes: seq<string>): string
  {
    Join(codes, ',')
  }

  /** Reads a comma-joined list of codes back; the empty string is the empty set. */
  function Parse(s: string): seq<string>
  {
    if s == "" then [] else Split(s, ',')
  }

  /** Rendering then parsing gives back the codes. */
  lemma ParseRender(codes: seq<string>)
    requires Safe(codes)
    ensures Parse(Render(codes)) == codes
  {
    if |codes| > 0 {
      SplitJoin(codes, ',');
      assert |Render(codes)| >= |codes[0]| > 0 by {
        if |codes| > 1 {
          assert Render(codes) == codes[0] + [','] + Join(codes[1..], ',');
        }
      }
    }
  }

  /** Without `Safe` the rendering is not one-to-one: a code holding a comma
      renders as two codes do, and the empty code renders as no code. */
  lemma UnsafeCodesCollide()
    ensures Render(["A,B"]) == Render(["A", "B"])
    ensures Render([""]) == Render([]) && Parse(Render([""])) == []
  {
  }

  /** The rendering of safe codes holds none of the outer separators. */
  lemma RenderAvoids(codes: seq<string>, c: char)
    requires Safe(codes)
    requires c == '_' || c == '*' || c == ';'
    ensures c !in Render(codes)
  {
    JoinAvoids(codes, ',', c);
  }
}

=== FILE: dates.dfy ===
/** Calendar dates, the partial-date merge of `_to_date` and the
    `%Y-%m-%d` rendering used in every serialised date. */
module Dates {
  import opened Wrappers
  import opened Text

  /** A year/month/day triple, not necessarily a real date. */
  datatype Ymd = Ymd(year: int, month: int, day: int)

  predicate IsLeapYear(y: int)
  {
    y % 4 == 0 && (y % 100 != 0 || y % 400 == 0)
  }

  function DaysInMonth(y: int, m: int): int
  {
    if m == 2 then (if IsLeapYear(y) then 29 else 28)
    else if m == 4 || m == 6 || m == 9 || m == 11 then 30
    else 31
  }

  /** A real Gregorian date whose year `%Y` renders with four digits. */
  predicate Valid(d: Ymd)
  {
    && 1000 <= d.year <= 9999
    && 1 <= d.month <= 12
    && 1 <= d.day <= DaysInMonth(d.year, d.month)
  }

  /** A Python `date` value. */
  type Date = d: Ymd | Valid(d) witness Ymd(2000, 1, 1)

  /** The `year=`, `month=` and `day=` keyword arguments, each possibly absent. */
  datatype DateParts = DateParts(year: Option<int>, month: Option<int>, day: Option<int>)
  {
    predicate NoneGiven()
    {
      year.None? && month.None? && day.None?
    }
  }

  /** All three components of `d`, as `itinerary()` passes them on. */
  function PartsOf(d: Date): DateParts
  {
    DateParts(Some(d.year), Some(d.month), Some(d.day))
  }

  function OrElse(o: Option<int>, default: int): int
  {
    if o.Some? then o.value else default
  }

  /** `date.today().replace(year=..., month=..., day=...)`: each absent
      component is taken from today. */
  function Fill(parts: DateParts, today: Date): Ymd
  {
    Ymd(OrElse(parts.year, today.year), OrElse(parts.month, today.month), OrElse(parts.day, today.day))
  }

  /** The merge succeeds: nothing was given, or the merged triple is a date. */
  predicate Resolvable(parts: DateParts, today: Date)
  {
    parts.NoneGiven() || Valid(Fill(parts, today))
  }

  /** `_to_date(year, month, day)` with today's date passed in. */
  function ToDate(parts: DateParts, today: Date): (r: Option<Date>)
    requires Resolvable(parts, today)
    ensures r.None? <==> parts.NoneGiven()
    ensures r.Some? ==> r.value.year == (if parts.year.Some? then parts.year.value else today.year)
    ensures r.Some? ==> r.value.month == (if parts.month.Some? then parts.month.value else today.month)
    ensures r.Some? ==> r.value.day == (if parts.day.Some? then parts.day.value else today.day)
  {
    if parts.NoneGiven() then None else Some(Fill(parts, today))
  }

  /** Passing every component of a date rebuilds that date, whatever today is. */
  lemma ToDatePartsOf(d: Date, today: Date)
    ensures Resolvable(PartsOf(d), today)
    ensures ToDate(PartsOf(d), today) == Some(d)
  {
  }

  /** `d.strftime("%Y-%m-%d")`. */
  function Format(d: Date): (r: string)
    ensures |r| == 10
    ensures forall i :: 0 <= i < |r| ==> r[i] == '-' || IsDigit(r[i])
  {
    Pad(d.year, 4) + "-" + Pad(d.month, 2) + "-" + Pad(d.day, 2)
  }

  /** Reads a `YYYY-MM-DD` string back into a date. */
  function Parse(s: string): Option<Date>
  {
    if |s| == 10 && s[4] == '-' && s[7] == '-'
       && AllDigits(s[..4]) && AllDigits(s[5..7]) && AllDigits(s[8..])
    then
      var d := Ymd(Value(s[..4]), Value(s[5..7]), Value(s[8..]));
      if Valid(d) then Some(d) else None
    else None
  }

  /** The rendering of a date reads back as that date. */
  lemma ParseFormat(d: Date)
    ensures Parse(Format(d)) == Some(d)
  {
    var s := Format(d);
    assert s[..4] == Pad(d.year, 4);
    assert s[5..7] == Pad(d.month, 2);
    assert s[8..] == Pad(d.day, 2);
    ValuePad(d.year, 4);
    ValuePad(d.month, 2);
    ValuePad(d.day, 2);
  }

  /** Every string that reads as a date is that date's rendering. */
  lemma FormatParse(s: string)
    requires Parse(s).Some?
    ensures Format(Parse(s).value) == s
  {
    var d := Parse(s).value;
    PadValue(s[..4]);
    PadValue(s[5..7]);
    PadValue(s[8..]);
    assert s == s[..4] + "-" + s[5..7] + "-" + s[8..];
  }

  /** A rendered date holds none of the separators of the URL grammar. */
  lemma FormatAvoids(d: Date, c: char)
    requires c == ',' || c == '_' || c == '*' || c == ';'
    ensures c !in Format(d)
  {
  }
}

=== FILE: fixtures.dfy ===
/** The recorded URL fragments of the test suite, stated as lemmas about the
    model. Calls that pass dates use `year=`/`month=`/`day=`, the keywords
    the builder reads. Each fixture is split in two: the search value the
    builder calls produce, and the fragment of that value. */
module Fixtures {
  import opened Wrappers
  import opened Text
  import opened Dates
  import AirportSets
  import Legs
  import Roundtrips
  import Itineraries

  const NoDate: DateParts := DateParts(None, None, None)

  function On(year: int, month: int, day: int): DateParts
  {
    DateParts(Some(year), Some(month), Some(day))
  }

  lemma Join2(a: string, b: string, sep: char)
    ensures Join([a, b], sep) == a + [sep] + b
  {
    assert [a, b][1..] == [b];
  }

  lemma Join4(a: string, b: string, c: string, d: string, sep: char)
    ensures Join([a, b, c, d], sep) == a + [sep] + b + [sep] + c + [sep] + d
  {
    assert [a, b, c, d][1..] == [b, c, d];
    assert [b, c, d][1..] == [c, d];
    Join2(c, d, sep);
  }

  lemma RenderOne(a: string)
    ensures AirportSets.Render([a]) == a
  {
  }

  lemma RenderJfkEwr()
    ensures AirportSets.Render(["JFK", "EWR"]) == "JFK,EWR"
  {
    Join2("JFK", "EWR", ',');
  }

  lemma RenderFourCodes()
    ensures AirportSets.Render(["JFK", "EWR", "LGA", "SWF"]) == "JFK,EWR,LGA,SWF"
  {
    Join4("JFK", "EWR", "LGA", "SWF", ',');
  }

  lemma RenderJnbCpt()
    ensures AirportSets.Render(["JNB", "CPT"]) == "JNB,CPT"
  {
    Join2("JNB", "CPT", ',');
  }

  lemma Suffix(key: string, d: Date, text: string)
    requires Format(d) == text
    ensures Roundtrips.DateSuffix(key, Some(d)) == ";" + key + "=" + text
  {
  }

  lemma Sep05()
    ensures Format(Ymd(2017, 9, 5)) == "2017-09-05"
  {
  }

  lemma Sep06()
    ensures Format(Ymd(2017, 9, 6)) == "2017-09-06"
  {
  }

  lemma Sep09()
    ensures Format(Ymd(2017, 9, 9)) == "2017-09-09"
  {
  }

  lemma Oct12()
    ensures Format(Ymd(2017, 10, 12)) == "2017-10-12"
  {
  }

  /** The round-trip grammar with its four parts already rendered. */
  lemma RoundtripUrlOf(s: Roundtrips.RoundtripSearch, f: string, t: string, d: string, r: string)
    requires AirportSets.Render(s.departing) == f && AirportSets.Render(s.returning) == t
    requires Roundtrips.DateSuffix("d", s.departingOn) == d && Roundtrips.DateSuffix("r", s.returningOn) == r
    ensures Roundtrips.Url(s) == "search;f=" + f + ";t=" + t + d + r
  {
    Roundtrips.UrlShape(s);
  }

  /** The leg grammar with its three parts already rendered. */
  lemma LegStringOf(leg: Legs.Leg, dep: string, arr: string, date: string)
    requires |leg.departing| > 0
    requires AirportSets.Render(leg.departing) == dep && AirportSets.Render(leg.arriving) == arr
    requires Legs.DateField(leg.date) == date
    ensures Legs.Parameters(leg) == Success(dep + "_" + arr + "_" + date)
  {
    Legs.ParametersShape(leg);
  }

  /** A leg built from distinct codes, with its three parts already rendered. */
  lemma LegOf(dep: seq<string>, arr: seq<string>, date: Option<Date>, depText: string, arrText: string, dateText: string)
    requires |dep| > 0 && AirportSets.NoDuplicates(dep) && AirportSets.NoDuplicates(arr)
    requires AirportSets.Render(dep) == depText && AirportSets.Render(arr) == arrText
    requires Legs.DateField(date) == dateText
    ensures Legs.Parameters(Legs.Leg(AirportSets.FromCodes(dep), AirportSets.FromCodes(arr), date))
      == Success(depText + "_" + arrText + "_" + dateText)
  {
    AirportSets.FromDistinctCodes(dep);
    AirportSets.FromDistinctCodes(arr);
    LegStringOf(Legs.Leg(dep, arr, date), depText, arrText, dateText);
  }

  // ---- spelled-out fragments ----
  // Each equality between a concatenation of literals and the literal it
  // spells is a lemma of its own, so that a fixture's proof uses it as one
  // fact instead of re-deriving it among the fixture's other steps.

  lemma SpellRoundtrip()
    ensures "search;f=" + "JFK" + ";t=" + "JNB" + "" + "" == "search;f=JFK;t=JNB"
  {
  }

  lemma SpellMultipleAirports()
    ensures "search;f=" + "JFK,EWR,LGA,SWF" + ";t=" + "JNB,CPT" + "" + ""
         == "search;f=JFK,EWR,LGA,SWF;t=JNB,CPT"
  {
  }

  lemma SpellRoundtripWithDates()
    ensures "search;f=" + "JFK" + ";t=" + "JNB" + ";d=2017-09-06" + ";r=2017-10-12"
         == "search;f=JFK;t=JNB;d=2017-09-06;r=2017-10-12"
  {
  }

  lemma SpellPartialDate()
    ensures "search;f=" + "JFK" + ";t=" + "JNB" + ";d=2017-09-06" + ""
         == "search;f=JFK;t=JNB;d=2017-09-06"
  {
  }

  lemma SpellItinerary()
    ensures "search;iti=" + "JFK,EWR_JNB_" + "*" + "JNB_JFK,EWR_" + ";tt=m"
         == "search;iti=JFK,EWR_JNB_*JNB_JFK,EWR_;tt=m"
  {
  }

  lemma SpellItineraryWithDatesHead()
    ensures "search;iti=" + "JFK_JNB_2017-09-05" + "*" == "search;iti=JFK_JNB_2017-09-05*"
  {
  }

  lemma SpellItineraryWithDates()
    ensures "search;iti=" + "JFK_JNB_2017-09-05" + "*" + "CPT_JFK,EWR_2017-09-09" + ";tt=m"
         == "search;iti=JFK_JNB_2017-09-05*CPT_JFK,EWR_2017-09-09;tt=m"
  {
    SpellItineraryWithDatesHead();
    var tail := "CPT_JFK,EWR_2017-09-09" + ";tt=m";
    assert tail == "CPT_JFK,EWR_2017-09-09;tt=m";
  }

  lemma SpellLegs()
    ensures "JFK,EWR" + "_" + "JNB" + "_" + "" == "JFK,EWR_JNB_"
    ensures "JNB" + "_" + "JFK,EWR" + "_" + "" == "JNB_JFK,EWR_"
    ensures "JFK" + "_" + "" + "_" + "" == "JFK__"
  {
  }

  lemma SpellDatedFirstLeg()
    ensures "JFK" + "_" + "JNB" + "_" + "2017-09-05" == "JFK_JNB_2017-09-05"
  {
  }

  lemma SpellDatedSecondLeg()
    ensures "CPT" + "_" + "JFK,EWR" + "_" + "2017-09-09" == "CPT_JFK,EWR_2017-09-09"
  {
  }

  lemma SpellOneDepartureLeg()
    ensures "search;iti=" + "JFK__" + ";tt=m" == "search;iti=JFK__;tt=m"
  {
  }

  // ---- round trips ----

  /** `roundtrip().departing(dep, p).returning(ret, q)` with distinct codes,
      its four parts already rendered. */
  lemma TwoCallsUrl(dep: seq<string>, p: DateParts, ret: seq<string>, q: DateParts, today: Date,
                    f: string, t: string, d: string, r: string)
    requires Resolvable(p, today) && Resolvable(q, today)
    requires AirportSets.NoDuplicates(dep) && AirportSets.NoDuplicates(ret)
    requires AirportSets.Render(dep) == f && AirportSets.Render(ret) == t
    requires Roundtrips.DateSuffix("d", ToDate(p, today)) == d && Roundtrips.DateSuffix("r", ToDate(q, today)) == r
    ensures Roundtrips.Url(Roundtrips.Returning(Roundtrips.Departing(Roundtrips.Start, dep, p, today), ret, q, today))
      == "search;f=" + f + ";t=" + t + d + r
  {
    AirportSets.FromDistinctCodes(dep);
    AirportSets.FromDistinctCodes(ret);
    RoundtripUrlOf(Roundtrips.Returning(Roundtrips.Departing(Roundtrips.Start, dep, p, today), ret, q, today),
                   f, t, d, r);
  }

  lemma RoundtripFixture(today: Date)
    ensures Roundtrips.Url(
      Roundtrips.Returning(Roundtrips.Departing(Roundtrips.Start, ["JFK"], NoDate, today), ["JNB"], NoDate, today))
      == "search;f=JFK;t=JNB"
  {
    RenderOne("JFK");
    RenderOne("JNB");
    TwoCallsUrl(["JFK"], NoDate, ["JNB"], NoDate, today, "JFK", "JNB", "", "");
    SpellRoundtrip();
  }

  lemma MultipleAirportsFixture(today: Date)
    ensures Roundtrips.Url(
      Roundtrips.Returning(
        Roundtrips.Departing(Roundtrips.Start, ["JFK", "EWR", "LGA", "SWF"], NoDate, today),
        ["JNB", "CPT"], NoDate, today))
      == "search;f=JFK,EWR,LGA,SWF;t=JNB,CPT"
  {
    RenderFourCodes();
    RenderJnbCpt();
    TwoCallsUrl(["JFK", "EWR", "LGA", "SWF"], NoDate, ["JNB", "CPT"], NoDate, today,
                "JFK,EWR,LGA,SWF", "JNB,CPT", "", "");
    SpellMultipleAirports();
  }

  /** The departure suffix of the dated round trip. */
  lemma DepartureSuffix(today: Date)
    ensures Roundtrips.DateSuffix("d", ToDate(On(2017, 9, 6), today)) == ";d=2017-09-06"
  {
    ToDatePartsOf(Ymd(2017, 9, 6), today);
    Sep06();
    Suffix("d", Ymd(2017, 9, 6), "2017-09-06");
  }

  /** The return suffix of the dated round trip. */
  lemma ReturnSuffix(today: Date)
    ensures Roundtrips.DateSuffix("r", ToDate(On(2017, 10, 12), today)) == ";r=2017-10-12"
  {
    ToDatePartsOf(Ymd(2017, 10, 12), today);
    Oct12();
    Suffix("r", Ymd(2017, 10, 12), "2017-10-12");
  }

  lemma RoundtripWithDatesFixture(today: Date)
    ensures Roundtrips.Url(
      Roundtrips.Returning(
        Roundtrips.Departing(Roundtrips.Start, ["JFK"], On(2017, 9, 6), today),
        ["JNB"], On(2017, 10, 12), today))
      == "search;f=JFK;t=JNB;d=2017-09-06;r=2017-10-12"
  {
    ToDatePartsOf(Ymd(2017, 9, 6), today);
    ToDatePartsOf(Ymd(2017, 10, 12), today);
    RenderOne("JFK");
    RenderOne("JNB");
    DepartureSuffix(today);
    ReturnSuffix(today);
    TwoCallsUrl(["JFK"], On(2017, 9, 6), ["JNB"], On(2017, 10, 12), today,
                "JFK", "JNB", ";d=2017-09-06", ";r=2017-10-12");
    SpellRoundtripWithDates();
  }

  /** The partial date `day=6` with today 2017-09-01 is 2017-09-06. */
  lemma PartialDate()
    ensures Resolvable(DateParts(None, None, Some(6)), Ymd(2017, 9, 1))
    ensures ToDate(DateParts(None, None, Some(6)), Ymd(2017, 9, 1)) == Some(Ymd(2017, 9, 6))
  {
  }

  lemma PartialSuffix()
    ensures Roundtrips.DateSuffix("d", ToDate(DateParts(None, None, Some(6)), Ymd(2017, 9, 1))) == ";d=2017-09-06"
  {
    PartialDate();
    Sep06();
    Suffix("d", Ymd(2017, 9, 6), "2017-09-06");
  }

  /** Only the day is given: year and month come from today. */
  lemma PartialDateFixture()
    ensures Roundtrips.Url(
      Roundtrips.Returning(
        Roundtrips.Departing(Roundtrips.Start, ["JFK"], DateParts(None, None, Some(6)), Ymd(2017, 9, 1)),
        ["JNB"], NoDate, Ymd(2017, 9, 1)))
      == "search;f=JFK;t=JNB;d=2017-09-06"
  {
    RenderOne("JFK");
    RenderOne("JNB");
    PartialSuffix();
    TwoCallsUrl(["JFK"], DateParts(None, None, Some(6)), ["JNB"], NoDate, Ymd(2017, 9, 1),
                "JFK", "JNB", ";d=2017-09-06", "");
    SpellPartialDate();
  }

  // ---- itineraries ----

  lemma TwoLegUrl(s: Itineraries.ItinerarySearch, a: string, b: string)
    requires |s.legs| == 2
    requires Legs.Parameters(s.legs[0]) == Success(a)
    requires Legs.Parameters(s.legs[1]) == Success(b)
    ensures Itineraries.Url(s) == Success("search;iti=" + a + "*" + b + ";tt=m")
  {
    var strings := Itineraries.LegStrings(s.legs).value;
    assert strings[0] == a && strings[1] == b;
    assert strings == [a, b];
    Join2(a, b, '*');
    Itineraries.UrlShape(s);
    assert "search;iti=" + (a + "*" + b) + ";tt=m" == "search;iti=" + a + "*" + b + ";tt=m";
  }

  /** `itinerary().departing(a, p).arriving(b)` is the one leg from `a` to `b`. */
  lemma FirstLeg(a: seq<string>, p: DateParts, b: seq<string>, today: Date)
    requires Resolvable(p, today)
    ensures Itineraries.Arriving(Itineraries.Departing(Itineraries.Start, a, p, today), b).legs
      == [Legs.Leg(AirportSets.FromCodes(a), AirportSets.FromCodes(b), ToDate(p, today))]
  {
  }

  /** After a complete leg, `departing(c, q).arriving(d)` appends the leg from `c` to `d`. */
  lemma NextLeg(s: Itineraries.ItinerarySearch, c: seq<string>, q: DateParts, d: seq<string>, today: Date)
    requires |s.legs| > 0 && Itineraries.Last(s.legs).Complete()
    requires Resolvable(q, today)
    ensures Itineraries.Arriving(Itineraries.Departing(s, c, q, today), d).legs
      == s.legs + [Legs.Leg(AirportSets.FromCodes(c), AirportSets.FromCodes(d), ToDate(q, today))]
  {
  }

  /** `itinerary().departing(a, p).arriving(b).departing(c, q).arriving(d)`. */
  function FourCalls(a: seq<string>, p: DateParts, b: seq<string>, c: seq<string>, q: DateParts, d: seq<string>,
                     today: Date): (r: Itineraries.ItinerarySearch)
    requires Resolvable(p, today) && Resolvable(q, today)
    ensures |a| > 0 && |b| > 0 ==>
      r.legs == [Legs.Leg(AirportSets.FromCodes(a), AirportSets.FromCodes(b), ToDate(p, today)),
                 Legs.Leg(AirportSets.FromCodes(c), AirportSets.FromCodes(d), ToDate(q, today))]
  {
    var s1 := Itineraries.Arriving(Itineraries.Departing(Itineraries.Start, a, p, today), b);
    FirstLeg(a, p, b, today);
    AirportSets.FromCodesEmpty(a);
    AirportSets.FromCodesEmpty(b);
    var r := Itineraries.Arriving(Itineraries.Departing(s1, c, q, today), d);
    if |a| > 0 && |b| > 0 then NextLeg(s1, c, q, d, today); r else r
  }

  /** The first leg of the undated itinerary: `JFK,EWR` to `JNB`. */
  lemma UndatedFirstLeg()
    ensures Legs.Parameters(Legs.Leg(AirportSets.FromCodes(["JFK", "EWR"]), AirportSets.FromCodes(["JNB"]), None))
      == Success("JFK,EWR_JNB_")
  {
    RenderJfkEwr();
    RenderOne("JNB");
    LegOf(["JFK", "EWR"], ["JNB"], None, "JFK,EWR", "JNB", "");
    SpellLegs();
  }

  /** The second leg of the undated itinerary: `JNB` back to `JFK,EWR`. */
  lemma UndatedSecondLeg()
    ensures Legs.Parameters(Legs.Leg(AirportSets.FromCodes(["JNB"]), AirportSets.FromCodes(["JFK", "EWR"]), None))
      == Success("JNB_JFK,EWR_")
  {
    RenderJfkEwr();
    RenderOne("JNB");
    LegOf(["JNB"], ["JFK", "EWR"], None, "JNB", "JFK,EWR", "");
    SpellLegs();
  }

  lemma ItineraryFixture(today: Date)
    ensures Itineraries.Url(FourCalls(["JFK", "EWR"], NoDate, ["JNB"], ["JNB"], NoDate, ["JFK", "EWR"], today))
      == Success("search;iti=JFK,EWR_JNB_*JNB_JFK,EWR_;tt=m")
  {
    UndatedFirstLeg();
    UndatedSecondLeg();
    TwoLegUrl(FourCalls(["JFK", "EWR"], NoDate, ["JNB"], ["JNB"], NoDate, ["JFK", "EWR"], today),
              "JFK,EWR_JNB_", "JNB_JFK,EWR_");
    SpellItinerary();
  }

  /** The first dated leg: `JFK` to `JNB` on 2017-09-05. */
  lemma DatedFirstLeg(today: Date)
    ensures Legs.Parameters(Legs.Leg(AirportSets.FromCodes(["JFK"]), AirportSets.FromCodes(["JNB"]),
                                     ToDate(On(2017, 9, 5), today)))
      == Success("JFK_JNB_2017-09-05")
  {
    ToDatePartsOf(Ymd(2017, 9, 5), today);
    RenderOne("JFK");
    RenderOne("JNB");
    Sep05();
    LegOf(["JFK"], ["JNB"], Some(Ymd(2017, 9, 5)), "JFK", "JNB", "2017-09-05");
    SpellDatedFirstLeg();
  }

  /** The second dated leg: `CPT` to `JFK,EWR` on 2017-09-09. */
  lemma DatedSecondLeg(today: Date)
    ensures Legs.Parameters(Legs.Leg(AirportSets.FromCodes(["CPT"]), AirportSets.FromCodes(["JFK", "EWR"]),
                                     ToDate(On(2017, 9, 9), today)))
      == Success("CPT_JFK,EWR_2017-09-09")
  {
    ToDatePartsOf(Ymd(2017, 9, 9), today);
    RenderOne("CPT");
    RenderJfkEwr();
    Sep09();
    LegOf(["CPT"], ["JFK", "EWR"], Some(Ymd(2017, 9, 9)), "CPT", "JFK,EWR", "2017-09-09");
    SpellDatedSecondLeg();
  }

  lemma ItineraryWithDatesFixture(today: Date)
    ensures Itineraries.Url(FourCalls(["JFK"], On(2017, 9, 5), ["JNB"], ["CPT"], On(2017, 9, 9), ["JFK", "EWR"], today))
      == Success("search;iti=JFK_JNB_2017-09-05*CPT_JFK,EWR_2017-09-09;tt=m")
  {
    ToDatePartsOf(Ymd(2017, 9, 5), today);
    ToDatePartsOf(Ymd(2017, 9, 9), today);
    DatedFirstLeg(today);
    DatedSecondLeg(today);
    TwoLegUrl(FourCalls(["JFK"], On(2017, 9, 5), ["JNB"], ["CPT"], On(2017, 9, 9), ["JFK", "EWR"], today),
              "JFK_JNB_2017-09-05", "CPT_JFK,EWR_2017-09-09");
    SpellItineraryWithDates();
  }

  lemma OneDepartureLegUrl(s: Itineraries.ItinerarySearch)
    requires |s.legs| == 1 && s.legs[0] == Legs.Leg(["JFK"], [], None)
    ensures Itineraries.Url(s) == Success("search;iti=JFK__;tt=m")
  {
    RenderOne("JFK");
    LegStringOf(s.legs[0], "JFK", "", "");
    SpellLegs();
    var strings := Itineraries.LegStrings(s.legs).value;
    assert strings[0] == "JFK__";
    assert strings == ["JFK__"];
    Itineraries.UrlShape(s);
    SpellOneDepartureLeg();
  }

  lemma OneDepartureLegFixture(today: Date)
    ensures Itineraries.Url(Itineraries.Departing(Itineraries.Start, ["JFK"], NoDate, today))
      == Success("search;iti=JFK__;tt=m")
  {
    var s := Itineraries.Departing(Itineraries.Start, ["JFK"], NoDate, today);
    assert s.legs == [Legs.Leg(["JFK"], [], None)] by {
      AirportSets.FromDistinctCodes(["JFK"]);
    }
    OneDepartureLegUrl(s);
  }

  lemma CannotSkipDepartureFixture()
    ensures Itineraries.Url(Itineraries.Arriving(Itineraries.Start, ["JFK"])).Failure?
  {
  }
}

=== FILE: fragments.dfy ===
/** `_url`: the URL fragment `search;k1=v1;k2=v2;...` built from an ordered
    list of key/value pairs, and a reader for it. The base URL in front of
    the fragment is a constant and is not modelled. */
module Fragments {
  import opened Wrappers
  import opened Text

  type Pair = (string, string)

  /** `"=".join(pair)`. */
  function RenderPair(p: Pair): string
  {
    p.0 + "=" + p.1
  }

  function RenderPairs(pairs: seq<Pair>): (r: seq<string>)
    ensures |r| == |pairs|
    ensures forall i :: 0 <= i < |r| ==> r[i] == RenderPair(pairs[i])
  {
    if |pairs| == 0 then [] else [RenderPair(pairs[0])] + RenderPairs(pairs[1..])
  }

  const Prefix: string := "search;"

  /** `"search;" + ";".join("=".join(each) for each in pairs)`. */
  function Fragment(pairs: seq<Pair>): string
  {
    Prefix + Join(RenderPairs(pairs), ';')
  }

  /** A single pair renders as `search;key=value`. */
  lemma FragmentSingle(p: Pair)
    ensures Fragment([p]) == "search;" + p.0 + "=" + p.1
  {
  }

  /** One more pair adds `;key=value` at the end: pair order is kept. */
  lemma FragmentSnoc(pairs: seq<Pair>, p: Pair)
    requires |pairs| > 0
    ensures Fragment(pairs + [p]) == Fragment(pairs) + (";" + p.0 + "=" + p.1)
  {
    assert RenderPairs(pairs + [p]) == RenderPairs(pairs) + [RenderPair(p)];
    JoinSnoc(RenderPairs(pairs), RenderPair(p), ';');
  }

  /** Splits `key=value` at its first `=`. */
  function ParsePair(s: string): Option<Pair>
  {
    if |s| == 0 then None
    else if s[0] == '=' then Some(("", s[1..]))
    else
      match ParsePair(s[1..])
      case None => None
      case Some(p) => Some(([s[0]] + p.0, p.1))
  }

  function ParsePairs(items: seq<string>): Option<seq<Pair>>
  {
    if |items| == 0 then Some([])
    else
      match ParsePair(items[0])
      case None => None
      case Some(p) =>
        match ParsePairs(items[1..])
        case None => None
        case Some(ps) => Some([p] + ps)
  }

  /** Reads a fragment back into its key/value pairs. */
  function Parse(f: string): Option<seq<Pair>>
  {
    if |f| < |Prefix| || f[..|Prefix|] != Prefix then None
    else ParsePairs(Split(f[|Prefix|..], ';'))
  }

  /** The pairs a fragment can carry unambiguously: keys without `=`, and
      neither keys nor values containing `;`. */
  predicate Carriable(pairs: seq<Pair>)
  {
    forall i :: 0 <= i < |pairs| ==> '=' !in pairs[i].0 && ';' !in pairs[i].0 && ';' !in pairs[i].1
  }

  /** A pair splits back at the `=` that `RenderPair` put there. */
  lemma {:induction false} ParseRenderPair(key: string, value: string)
    requires '=' !in key
    ensures ParsePair(RenderPair((key, value))) == Some((key, value))
  {
    var s := RenderPair((key, value));
    if |key| > 0 {
      assert s[1..] == RenderPair((key[1..], value));
      ParseRenderPair(key[1..], value);
      assert [key[0]] + key[1..] == key;
    } else {
      assert s[1..] == value;
    }
  }

  lemma {:induction false} ParsePairsRender(pairs: seq<Pair>)
    requires Carriable(pairs)
    ensures ParsePairs(RenderPairs(pairs)) == Some(pairs)
  {
    if |pairs| > 0 {
      ParseRenderPair(pairs[0].0, pairs[0].1);
      ParsePairsRender(pairs[1..]);
      assert RenderPairs(pairs)[1..] == RenderPairs(pairs[1..]);
      assert [pairs[0]] + pairs[1..] == pairs;
    }
  }

  /** The fragment of a non-empty list of carriable pairs reads back as
      exactly those pairs, in the same order. */
  lemma ParseFragment(pairs: seq<Pair>)
    requires |pairs| > 0
    requires Carriable(pairs)
    ensures Parse(Fragment(pairs)) == Some(pairs)
  {
    var items := RenderPairs(pairs);
    forall i | 0 <= i < |items|
      ensures ';' !in items[i]
    {
      assert items[i] == pairs[i].0 + "=" + pairs[i].1;
    }
    SplitJoin(items, ';');
    var f := Fragment(pairs);
    assert f[..|Prefix|] == Prefix;
    assert f[|Prefix|..] == Join(items, ';');
    ParsePairsRender(pairs);
  }
}

=== FILE: itineraries.dfy ===
/** `_ItinerarySearch`: the multi-leg state machine deciding whether a call
    amends the open leg or starts a new one, and its `iti=...;tt=m` fragment. */
module Itineraries {
  import opened Wrappers
  import opened Text
  import opened Dates
  import opened Legs
  import AirportSets
  import Fragments

  datatype ItinerarySearch = ItinerarySearch(legs: seq<Leg>)

  /** `itinerary()`: a single empty leg. */
  const Start: ItinerarySearch := ItinerarySearch([EmptyLeg])

  function Last(legs: seq<Leg>): Leg
    requires |legs| > 0
  {
    legs[|legs| - 1]
  }

  /** The leg-sequencing invariant: every leg except the last is complete. */
  predicate AllButLastComplete(legs: seq<Leg>)
  {
    forall i :: 0 <= i < |legs| - 1 ==> legs[i].Complete()
  }

  /** `_with_last_incomplete_leg`: the legs to keep, and the leg the next call
      amends. A complete last leg is kept and a fresh empty leg is opened;
      an incomplete last leg is taken off to be amended. */
  function WithLastIncompleteLeg(legs: seq<Leg>): (r: (seq<Leg>, Leg))
    requires |legs| > 0
    ensures !r.1.Complete()
    ensures legs <= r.0 + [r.1]
    ensures |r.0| == |legs| - 1 || |r.0| == |legs|
    ensures |r.0| == |legs| <==> Last(legs).Complete()
    ensures |r.0| == |legs| ==> r.1 == EmptyLeg
  {
    if Last(legs).Complete() then (legs, EmptyLeg) else (legs[..|legs| - 1], Last(legs))
  }

  /** `search.departing(*airports, year=..., month=..., day=...)`. */
  function Departing(s: ItinerarySearch, airports: seq<string>, parts: DateParts, today: Date): (r: ItinerarySearch)
    requires |s.legs| > 0
    requires Resolvable(parts, today)
    ensures |r.legs| == |s.legs| + (if Last(s.legs).Complete() then 1 else 0)
    ensures r.legs[..|s.legs| - 1] == s.legs[..|s.legs| - 1]
    ensures Last(s.legs).Complete() ==> r.legs[..|s.legs|] == s.legs
    ensures AirportSets.NoDuplicates(Last(r.legs).departing)
    ensures forall c :: c in Last(r.legs).departing <==> c in airports
    ensures Last(r.legs).date == ToDate(parts, today)
    ensures Last(r.legs).arriving == (if Last(s.legs).Complete() then [] else Last(s.legs).arriving)
    ensures AllButLastComplete(r.legs) <==> AllButLastComplete(s.legs)
  {
    var (kept, leg) := WithLastIncompleteLeg(s.legs);
    ItinerarySearch(kept + [Legs.Departing(leg, airports, parts, today)])
  }

  /** `search.arriving(*airports)`: goes through the same helper as
      `departing`, so on a complete last leg it opens a new leg that has
      arrivals only. */
  function Arriving(s: ItinerarySearch, airports: seq<string>): (r: ItinerarySearch)
    requires |s.legs| > 0
    ensures |r.legs| == |s.legs| + (if Last(s.legs).Complete() then 1 else 0)
    ensures r.legs[..|s.legs| - 1] == s.legs[..|s.legs| - 1]
    ensures Last(s.legs).Complete() ==> r.legs[..|s.legs|] == s.legs
    ensures AirportSets.NoDuplicates(Last(r.legs).arriving)
    ensures forall c :: c in Last(r.legs).arriving <==> c in airports
    ensures Last(r.legs).departing == (if Last(s.legs).Complete() then [] else Last(s.legs).departing)
    ensures Last(r.legs).date == (if Last(s.legs).Complete() then None else Last(s.legs).date)
    ensures AllButLastComplete(r.legs) <==> AllButLastComplete(s.legs)
  {
    var (kept, leg) := WithLastIncompleteLeg(s.legs);
    ItinerarySearch(kept + [Legs.Arriving(leg, airports)])
  }

  /** The leg strings in order, or the error of the first leg without a
      departing airport. */
  function LegStrings(legs: seq<Leg>): (r: Result<seq<string>, InvalidSearch>)
    ensures r.Success? <==> forall i :: 0 <= i < |legs| ==> |legs[i].departing| > 0
    ensures r.Success? ==> |r.value| == |legs|
    ensures r.Success? ==> forall i :: 0 <= i < |legs| ==> Legs.Parameters(legs[i]) == Success(r.value[i])
    ensures r.Failure? ==>
      exists i :: 0 <= i < |legs| && r.error == InvalidSearch(legs[i], NeedsDeparting)
                  && |legs[i].departing| == 0
                  && forall j :: 0 <= j < i ==> |legs[j].departing| > 0
  {
    if |legs| == 0 then Success([])
    else
      match Legs.Parameters(legs[0])
      case Failure(e) => Failure(e)
      case Success(p) =>
        match LegStrings(legs[1..])
        case Failure(e) =>
          assert exists i :: 0 <= i < |legs[1..]| && e == InvalidSearch(legs[1..][i], NeedsDeparting)
                  && |legs[1..][i].departing| == 0
                  && forall j :: 0 <= j < i ==> |legs[1..][j].departing| > 0;
          Failure(e)
        case Success(ps) => Success([p] + ps)
  }

  /** `search._parameters()`. */
  function Parameters(s: ItinerarySearch): (r: Result<seq<Fragments.Pair>, InvalidSearch>)
    ensures r.Failure? <==> exists i :: 0 <= i < |s.legs| && |s.legs[i].departing| == 0
    ensures r.Success? ==> |r.value| == 2 && r.value[1] == ("tt", "m")
    ensures r.Success? ==> r.value[0] == ("iti", Join(LegStrings(s.legs).value, '*'))
    ensures r.Failure? ==>
      exists i :: 0 <= i < |s.legs| && r.error == InvalidSearch(s.legs[i], NeedsDeparting)
                  && |s.legs[i].departing| == 0
                  && forall j :: 0 <= j < i ==> |s.legs[j].departing| > 0
  {
    match LegStrings(s.legs)
    case Failure(e) => Failure(e)
    case Success(strings) => Success([("iti", Join(strings, '*')), ("tt", "m")])
  }

  /** `search.url()`, as its fragment: fails exactly when some leg has no
      departing airport, with the first such leg as the offender. */
  function Url(s: ItinerarySearch): (r: Result<string, InvalidSearch>)
    ensures r.Failure? <==> exists i :: 0 <= i < |s.legs| && |s.legs[i].departing| == 0
    ensures r.Failure? ==>
      exists i :: 0 <= i < |s.legs| && r.error == InvalidSearch(s.legs[i], NeedsDeparting)
                  && |s.legs[i].departing| == 0
                  && forall j :: 0 <= j < i ==> |s.legs[j].departing| > 0
  {
    match Parameters(s)
    case Failure(e) => Failure(e)
    case Success(pairs) => Success(Fragments.Fragment(pairs))
  }

  /** The itinerary fragment grammar: `search;iti=<leg>*<leg>...;tt=m`,
      the leg strings in leg order. */
  lemma UrlShape(s: ItinerarySearch)
    requires LegStrings(s.legs).Success?
    ensures Url(s) == Success("search;iti=" + Join(LegStrings(s.legs).value, '*') + ";tt=m")
  {
    var x := Join(LegStrings(s.legs).value, '*');
    var items := Fragments.RenderPairs([("iti", x), ("tt", "m")]);
    assert items[0] == "iti=" + x;
    assert items[1] == "tt=m";
    assert items == ["iti=" + x, "tt=m"];
    assert items[1..] == ["tt=m"];
    assert Join(items, ';') == "iti=" + x + ";tt=m";
    assert Parameters(s) == Success([("iti", x), ("tt", "m")]);
    assert Fragments.Fragment([("iti", x), ("tt", "m")]) == "search;" + ("iti=" + x + ";tt=m");
    assert "search;" + ("iti=" + x + ";tt=m") == "search;iti=" + x + ";tt=m";
  }

  function DecodeLegs(items: seq<string>): Option<seq<Leg>>
  {
    if |items| == 0 then Some([])
    else
      match Legs.Decode(items[0])
      case None => None
      case Some(leg) =>
        match DecodeLegs(items[1..])
        case None => None
        case Some(rest) => Some([leg] + rest)
  }

  /** Reads an itinerary fragment back into its legs. */
  function Decode(f: string): Option<seq<Leg>>
  {
    match Fragments.Parse(f)
    case None => None
    case Some(pairs) =>
      if |pairs| == 2 && pairs[0].0 == "iti" && pairs[1] == ("tt", "m")
      then DecodeLegs(Split(pairs[0].1, '*'))
      else None
  }

  /** Legs the URL can carry and serialise without error. */
  predicate Writable(legs: seq<Leg>)
  {
    forall i :: 0 <= i < |legs| ==> Legs.Serializable(legs[i]) && |legs[i].departing| > 0
  }

  lemma {:induction false} DecodeLegStrings(legs: seq<Leg>, strings: seq<string>)
    requires Writable(legs)
    requires |strings| == |legs|
    requires forall i :: 0 <= i < |legs| ==> Legs.Parameters(legs[i]) == Success(strings[i])
    ensures DecodeLegs(strings) == Some(legs)
  {
    if |legs| > 0 {
      DecodeParameters(legs[0]);
      DecodeLegStrings(legs[1..], strings[1..]);
      assert [legs[0]] + legs[1..] == legs;
    }
  }

  /** The fragment of a search with serialisable legs reads back as the
      same legs in the same order. */
  lemma DecodeUrl(s: ItinerarySearch)
    requires |s.legs| > 0
    requires Writable(s.legs)
    ensures Url(s).Success?
    ensures Decode(Url(s).value) == Some(s.legs)
  {
    var strings := LegStrings(s.legs).value;
    forall i | 0 <= i < |strings|
      ensures '*' !in strings[i] && ';' !in strings[i]
    {
      ParametersAvoid(s.legs[i], '*');
      ParametersAvoid(s.legs[i], ';');
    }
    JoinAvoids(strings, '*', ';');
    var pairs := [("iti", Join(strings, '*')), ("tt", "m")];
    Fragments.ParseFragment(pairs);
    SplitJoin(strings, '*');
    DecodeLegStrings(s.legs, strings);
  }

  /** One builder call. */
  datatype Call = Depart(airports: seq<string>, parts: DateParts) | Arrive(airports: seq<string>)

  predicate CallsResolvable(calls: seq<Call>, today: Date)
  {
    forall i :: 0 <= i < |calls| ==> calls[i].Depart? ==> Resolvable(calls[i].parts, today)
  }

  function Step(s: ItinerarySearch, call: Call, today: Date): (r: ItinerarySearch)
    requires |s.legs| > 0
    requires call.Depart? ==> Resolvable(call.parts, today)
    ensures |s.legs| <= |r.legs| <= |s.legs| + 1
    ensures r.legs[..|s.legs| - 1] == s.legs[..|s.legs| - 1]
    ensures AllButLastComplete(r.legs) <==> AllButLastComplete(s.legs)
  {
    match call
    case Depart(airports, parts) => Departing(s, airports, parts, today)
    case Arrive(airports) => Arriving(s, airports)
  }

  /** Dropping the first call keeps the later calls' dates resolvable. */
  lemma CallsResolvableTail(calls: seq<Call>, today: Date)
    requires |calls| > 0 && CallsResolvable(calls, today)
    ensures CallsResolvable(calls[1..], today)
  {
    forall i | 0 <= i < |calls[1..]| && calls[1..][i].Depart?
      ensures Resolvable(calls[1..][i].parts, today)
    {
      assert calls[1..][i] == calls[i + 1];
    }
  }

  /** A chain of builder calls applied in order. */
  function Run(s: ItinerarySearch, calls: seq<Call>, today: Date): (r: ItinerarySearch)
    requires |s.legs| > 0
    requires CallsResolvable(calls, today)
    ensures |r.legs| > 0
    decreases |calls|
  {
    if |calls| == 0 then s else Run(Step(s, calls[0], today), calls[1..], today)
  }

  /** Each call adds at most one leg and removes none. */
  lemma {:induction false} RunLength(s: ItinerarySearch, calls: seq<Call>, today: Date)
    requires |s.legs| > 0
    requires CallsResolvable(calls, today)
    ensures |s.legs| <= |Run(s, calls, today).legs| <= |s.legs| + |calls|
    decreases |calls|
  {
    if |calls| > 0 {
      CallsResolvableTail(calls, today);
      RunLength(Step(s, calls[0], today), calls[1..], today);
    }
  }

  /** Sequences that agree on their first `n` elements agree on their first `m <= n`. */
  lemma SamePrefix(x: seq<Leg>, y: seq<Leg>, m: nat, n: nat)
    requires m <= n <= |x| && n <= |y|
    requires x[..n] == y[..n]
    ensures x[..m] == y[..m]
  {
    assert x[..m] == x[..n][..m];
    assert y[..m] == y[..n][..m];
  }

  /** No call changes a leg before the open one. */
  lemma {:induction false} RunKeepsEarlierLegs(s: ItinerarySearch, calls: seq<Call>, today: Date)
    requires |s.legs| > 0
    requires CallsResolvable(calls, today)
    ensures |s.legs| <= |Run(s, calls, today).legs|
    ensures Run(s, calls, today).legs[..|s.legs| - 1] == s.legs[..|s.legs| - 1]
    decreases |calls|
  {
    if |calls| > 0 {
      var next := Step(s, calls[0], today);
      CallsResolvableTail(calls, today);
      RunKeepsEarlierLegs(next, calls[1..], today);
      var r := Run(next, calls[1..], today);
      assert Run(s, calls, today) == r;
      SamePrefix(r.legs, next.legs, |s.legs| - 1, |next.legs| - 1);
    }
  }

  /** No call breaks "every leg but the last is complete". */
  lemma {:induction false} RunKeepsInvariant(s: ItinerarySearch, calls: seq<Call>, today: Date)
    requires |s.legs| > 0
    requires CallsResolvable(calls, today)
    requires AllButLastComplete(s.legs)
    ensures AllButLastComplete(Run(s, calls, today).legs)
    decreases |calls|
  {
    if |calls| > 0 {
      CallsResolvableTail(calls, today);
      RunKeepsInvariant(Step(s, calls[0], today), calls[1..], today);
    }
  }

  /** Any chain of calls keeps every leg but the last complete, never changes
      a leg before the open one, and adds at most one leg per call. */
  lemma RunKeepsLegsComplete(s: ItinerarySearch, calls: seq<Call>, today: Date)
    requires |s.legs| > 0
    requires CallsResolvable(calls, today)
    requires AllButLastComplete(s.legs)
    ensures AllButLastComplete(Run(s, calls, today).legs)
    ensures |s.legs| <= |Run(s, calls, today).legs| <= |s.legs| + |calls|
    ensures Run(s, calls, today).legs[..|s.legs| - 1] == s.legs[..|s.legs| - 1]
  {
    RunKeepsInvariant(s, calls, today);
    RunLength(s, calls, today);
    RunKeepsEarlierLegs(s, calls, today);
  }

  /** From `itinerary()`, whatever the calls, the URL fails exactly when the
      open last leg has no departing airport. */
  lemma UrlFailsOnlyOnOpenLeg(calls: seq<Call>, today: Date)
    requires CallsResolvable(calls, today)
    ensures var r := Run(Start, calls, today);
      Url(r).Failure? <==> |Last(r.legs).departing| == 0
  {
    var r := Run(Start, calls, today);
    RunKeepsInvariant(Start, calls, today);
    if |Last(r.legs).departing| > 0 {
      forall i | 0 <= i < |r.legs|
        ensures |r.legs[i].departing| > 0
      {
        if i < |r.legs| - 1 {
          assert r.legs[i].Complete();
        }
      }
    }
  }

  /** `arriving` on a complete last leg opens a leg with no departing
      airport, so the URL of the result fails on that new leg. */
  lemma ArrivingAfterCompleteLegFails(s: ItinerarySearch, airports: seq<string>)
    requires |s.legs| > 0
    requires Last(s.legs).Complete()
    ensures |Arriving(s, airports).legs| == |s.legs| + 1
    ensures Url(Arriving(s, airports)).Failure?
  {
    var r := Arriving(s, airports);
    assert |r.legs[|r.legs| - 1].departing| == 0;
  }
}

=== FILE: legs.dfy ===
/** `_Leg`: one directional flight segment of an itinerary, its
    copy-on-write mutators and its `dep_arr_date` serialisation. */
module Legs {
  import opened Wrappers
  import opened Text
  import opened Dates
  import AirportSets

  datatype Leg = Leg(departing: seq<string>, arriving: seq<string>, date: Option<Date>)
  {
    /** `complete`: both airport sets are non-empty. */
    predicate Complete()
    {
      |departing| > 0 && |arriving| > 0
    }
  }

  /** `_Leg()`: no airports, no date. */
  const EmptyLeg: Leg := Leg([], [], None)

  /** `InvalidSearch`, carrying the offending leg and a reason. */
  datatype InvalidSearch = InvalidSearch(leg: Leg, message: string)

  const NeedsDeparting: string := "needs a departing airport"

  /** `leg.departing(*airports, year=..., month=..., day=...)`: replaces the
      departing set and the date, keeps the arriving set. */
  function Departing(leg: Leg, airports: seq<string>, parts: DateParts, today: Date): (r: Leg)
    requires Resolvable(parts, today)
    ensures r.arriving == leg.arriving
    ensures AirportSets.NoDuplicates(r.departing)
    ensures forall c :: c in r.departing <==> c in airports
    ensures r.date == ToDate(parts, today)
  {
    leg.(departing := AirportSets.FromCodes(airports), date := ToDate(parts, today))
  }

  /** `leg.arriving(*airports)`: replaces the arriving set only. */
  function Arriving(leg: Leg, airports: seq<string>): (r: Leg)
    ensures r.departing == leg.departing
    ensures r.date == leg.date
    ensures AirportSets.NoDuplicates(r.arriving)
    ensures forall c :: c in r.arriving <==> c in airports
  {
    leg.(arriving := AirportSets.FromCodes(airports))
  }

  /** `complete` in terms of the calls: a fresh leg is not complete, and a
      leg amended by `departing` then `arriving` is complete exactly when both
      calls named at least one airport. */
  lemma CompleteAfterCalls(leg: Leg, departing: seq<string>, arriving: seq<string>, parts: DateParts, today: Date)
    requires Resolvable(parts, today)
    ensures !EmptyLeg.Complete()
    ensures Arriving(Departing(leg, departing, parts, today), arriving).Complete()
        <==> |departing| > 0 && |arriving| > 0
  {
  }

  /** The date field of a leg: `%Y-%m-%d`, or empty when there is no date. */
  function DateField(date: Option<Date>): string
  {
    if date.None? then "" else Format(date.value)
  }

  /** `leg.parameters()`: `dep_arr_date`, or `InvalidSearch` when the leg has
      no departing airport. */
  function Parameters(leg: Leg): (r: Result<string, InvalidSearch>)
    ensures r.Failure? <==> |leg.departing| == 0
    ensures r.Failure? ==> r.error == InvalidSearch(leg, NeedsDeparting)
  {
    if |leg.departing| == 0 then Failure(InvalidSearch(leg, NeedsDeparting))
    else Success(Join([AirportSets.Render(leg.departing), AirportSets.Render(leg.arriving), DateField(leg.date)], '_'))
  }

  /** The leg grammar: departing codes, `_`, arriving codes, `_`, and the
      date or nothing. */
  lemma ParametersShape(leg: Leg)
    requires |leg.departing| > 0
    ensures Parameters(leg) == Success(AirportSets.Render(leg.departing) + "_"
                                       + AirportSets.Render(leg.arriving) + "_" + DateField(leg.date))
  {
    var a, b, c := AirportSets.Render(leg.departing), AirportSets.Render(leg.arriving), DateField(leg.date);
    assert [a, b, c][1..] == [b, c];
    assert [b, c][1..] == [c];
    assert Join([b, c], '_') == b + "_" + c;
    assert Join([a, b, c], '_') == a + "_" + (b + "_" + c);
    assert a + "_" + (b + "_" + c) == a + "_" + b + "_" + c;
    assert Parameters(leg) == Success(Join([a, b, c], '_'));
  }

  /** Reads a `dep_arr_date` string back into a leg. */
  function Decode(s: string): Option<Leg>
  {
    var fields := Split(s, '_');
    if |fields| != 3 then None
    else
      var departing := AirportSets.Parse(fields[0]);
      var arriving := AirportSets.Parse(fields[1]);
      if fields[2] == "" then Some(Leg(departing, arriving, None))
      else
        match Dates.Parse(fields[2])
        case None => None
        case Some(d) => Some(Leg(departing, arriving, Some(d)))
  }

  /** A leg whose airport codes the URL grammar can carry. */
  predicate Serializable(leg: Leg)
  {
    AirportSets.Safe(leg.departing) && AirportSets.Safe(leg.arriving)
  }

  /** The string of a leg with a departing airport decodes back to the leg. */
  lemma DecodeParameters(leg: Leg)
    requires Serializable(leg)
    requires |leg.departing| > 0
    ensures Parameters(leg).Success?
    ensures Decode(Parameters(leg).value) == Some(leg)
  {
    var fields := [AirportSets.Render(leg.departing), AirportSets.Render(leg.arriving), DateField(leg.date)];
    AirportSets.RenderAvoids(leg.departing, '_');
    AirportSets.RenderAvoids(leg.arriving, '_');
    if leg.date.Some? {
      FormatAvoids(leg.date.value, '_');
      ParseFormat(leg.date.value);
    }
    SplitJoin(fields, '_');
    AirportSets.ParseRender(leg.departing);
    AirportSets.ParseRender(leg.arriving);
    if leg.date.Some? {
      assert fields[2] != "";
    }
  }

  /** A leg string holds neither the leg separator `*` nor the pair separator `;`. */
  lemma ParametersAvoid(leg: Leg, c: char)
    requires Serializable(leg)
    requires Parameters(leg).Success?
    requires c == '*' || c == ';'
    ensures c !in Parameters(leg).value
  {
    var fields := [AirportSets.Render(leg.departing), AirportSets.Render(leg.arriving), DateField(leg.date)];
    AirportSets.RenderAvoids(leg.departing, c);
    AirportSets.RenderAvoids(leg.arriving, c);
    if leg.date.Some? {
      FormatAvoids(leg.date.value, c);
    }
    JoinAvoids(fields, '_', c);
  }
}

=== FILE: roundtrips.dfy ===
/** `_RoundtripFlightSearch`: outbound and return airport sets with optional
    dates, its `f`/`t`/`d`/`r` fragment, and its conversion to a two-leg
    itinerary. */
module Roundtrips {
  import opened Wrappers
  import opened Dates
  import Text
  import AirportSets
  import Fragments
  import Legs
  import Itineraries

  datatype RoundtripSearch = RoundtripSearch(
    departing: seq<string>,
    departingOn: Option<Date>,
    returning: seq<string>,
    returningOn: Option<Date>)

  /** `roundtrip()`: no airports, no dates. */
  const Start: RoundtripSearch := RoundtripSearch([], None, [], None)

  /** `search.departing(*airports, year=..., month=..., day=...)`: replaces the
      outbound airports and date, keeps the return side. */
  function Departing(s: RoundtripSearch, airports: seq<string>, parts: DateParts, today: Date): (r: RoundtripSearch)
    requires Resolvable(parts, today)
    ensures r.returning == s.returning && r.returningOn == s.returningOn
    ensures AirportSets.NoDuplicates(r.departing)
    ensures forall c :: c in r.departing <==> c in airports
    ensures r.departingOn == ToDate(parts, today)
  {
    s.(departing := AirportSets.FromCodes(airports), departingOn := ToDate(parts, today))
  }

  /** `search.returning(*airports, year=..., month=..., day=...)`: replaces the
      return airports and date, keeps the outbound side. */
  function Returning(s: RoundtripSearch, airports: seq<string>, parts: DateParts, today: Date): (r: RoundtripSearch)
    requires Resolvable(parts, today)
    ensures r.departing == s.departing && r.departingOn == s.departingOn
    ensures AirportSets.NoDuplicates(r.returning)
    ensures forall c :: c in r.returning <==> c in airports
    ensures r.returningOn == ToDate(parts, today)
  {
    s.(returning := AirportSets.FromCodes(airports), returningOn := ToDate(parts, today))
  }

  function DatePairs(key: string, date: Option<Date>): seq<Fragments.Pair>
  {
    if date.Some? then [(key, Format(date.value))] else []
  }

  /** `search._parameters()`: `f` and `t` always, then `d` and `r` only for
      the dates that are present. */
  function Parameters(s: RoundtripSearch): (r: seq<Fragments.Pair>)
    ensures |r| == 2 + (if s.departingOn.Some? then 1 else 0) + (if s.returningOn.Some? then 1 else 0)
    ensures r[0] == ("f", AirportSets.Render(s.departing))
    ensures r[1] == ("t", AirportSets.Render(s.returning))
    ensures (exists i :: 0 <= i < |r| && r[i].0 == "d") <==> s.departingOn.Some?
    ensures (exists i :: 0 <= i < |r| && r[i].0 == "r") <==> s.returningOn.Some?
    ensures forall i :: 0 <= i < |r| && r[i].0 == "d" ==> r[i].1 == Format(s.departingOn.value)
    ensures forall i :: 0 <= i < |r| && r[i].0 == "r" ==> r[i].1 == Format(s.returningOn.value)
    ensures s.departingOn.Some? ==> r[2] == ("d", Format(s.departingOn.value))
    ensures s.returningOn.Some? ==> r[|r| - 1] == ("r", Format(s.returningOn.value))
  {
    var r := [("f", AirportSets.Render(s.departing)), ("t", AirportSets.Render(s.returning))]
      + DatePairs("d", s.departingOn) + DatePairs("r", s.returningOn);
    assert s.departingOn.Some? ==> r[2].0 == "d";
    assert s.returningOn.Some? ==> r[|r| - 1].0 == "r";
    r
  }

  /** `search.url()`, as its fragment. It has no error case: empty airport
      sets and absent dates are accepted. */
  function Url(s: RoundtripSearch): string
  {
    Fragments.Fragment(Parameters(s))
  }

  /** `;key=YYYY-MM-DD` for a present date, nothing for an absent one. */
  function DateSuffix(key: string, date: Option<Date>): string
  {
    if date.Some? then ";" + key + "=" + Format(date.value) else ""
  }

  /** The round-trip fragment grammar: `search;f=...;t=...`, then `;d=...`
      only with a departure date and `;r=...` only with a return date. */
  lemma UrlShape(s: RoundtripSearch)
    ensures Url(s) == "search;f=" + AirportSets.Render(s.departing) + ";t=" + AirportSets.Render(s.returning)
                      + DateSuffix("d", s.departingOn) + DateSuffix("r", s.returningOn)
  {
    var a := AirportSets.Render(s.departing);
    var b := AirportSets.Render(s.returning);
    var base := [("f", a), ("t", b)];
    var items := Fragments.RenderPairs(base);
    assert items[0] == "f=" + a;
    assert items[1] == "t=" + b;
    assert items[1..] == ["t=" + b];
    assert Text.Join(items, ';') == "f=" + a + ";t=" + b;
    assert Fragments.Fragment(base) == "search;" + ("f=" + a + ";t=" + b);
    assert Fragments.Fragment(base) == "search;f=" + a + ";t=" + b;
    var withD := base + DatePairs("d", s.departingOn);
    if s.departingOn.Some? {
      Fragments.FragmentSnoc(base, ("d", Format(s.departingOn.value)));
    } else {
      assert withD == base;
    }
    assert Fragments.Fragment(withD) == Fragments.Fragment(base) + DateSuffix("d", s.departingOn);
    if s.returningOn.Some? {
      Fragments.FragmentSnoc(withD, ("r", Format(s.returningOn.value)));
    } else {
      assert withD + DatePairs("r", s.returningOn) == withD;
    }
    assert Parameters(s) == withD + DatePairs("r", s.returningOn);
  }

  /** Reads the optional `d` and `r` pairs that follow `f` and `t`. */
  function DecodeDates(rest: seq<Fragments.Pair>): Option<(Option<Date>, Option<Date>)>
  {
    if |rest| == 0 then Some((None, None))
    else if |rest| == 1 && rest[0].0 == "d" then
      match Dates.Parse(rest[0].1)
      case None => None
      case Some(d) => Some((Some(d), None))
    else if |rest| == 1 && rest[0].0 == "r" then
      match Dates.Parse(rest[0].1)
      case None => None
      case Some(r) => Some((None, Some(r)))
    else if |rest| == 2 && rest[0].0 == "d" && rest[1].0 == "r" then
      match (Dates.Parse(rest[0].1), Dates.Parse(rest[1].1))
      case (Some(d), Some(r)) => Some((Some(d), Some(r)))
      case _ => None
    else None
  }

  /** Reads a round-trip fragment back into a search. */
  function Decode(f: string): Option<RoundtripSearch>
  {
    match Fragments.Parse(f)
    case None => None
    case Some(pairs) =>
      if |pairs| < 2 || pairs[0].0 != "f" || pairs[1].0 != "t" then None
      else
        match DecodeDates(pairs[2..])
        case None => None
        case Some(dates) =>
          Some(RoundtripSearch(AirportSets.Parse(pairs[0].1), dates.0, AirportSets.Parse(pairs[1].1), dates.1))
  }

  /** The optional date pairs read back as the dates they came from. */
  lemma DecodeDatePairs(departingOn: Option<Date>, returningOn: Option<Date>)
    ensures DecodeDates(DatePairs("d", departingOn) + DatePairs("r", returningOn)) == Some((departingOn, returningOn))
  {
    if departingOn.Some? {
      ParseFormat(departingOn.value);
    }
    if returningOn.Some? {
      ParseFormat(returningOn.value);
    }
  }

  lemma CarriableParameters(s: RoundtripSearch)
    requires AirportSets.Safe(s.departing) && AirportSets.Safe(s.returning)
    ensures Fragments.Carriable(Parameters(s))
  {
    AirportSets.RenderAvoids(s.departing, ';');
    AirportSets.RenderAvoids(s.returning, ';');
    if s.departingOn.Some? {
      FormatAvoids(s.departingOn.value, ';');
    }
    if s.returningOn.Some? {
      FormatAvoids(s.returningOn.value, ';');
    }
  }

  /** The fragment of a search with carriable codes reads back as that
      search, empty airport sets and absent dates included. */
  lemma DecodeUrl(s: RoundtripSearch)
    requires AirportSets.Safe(s.departing) && AirportSets.Safe(s.returning)
    ensures Decode(Url(s)) == Some(s)
  {
    var pairs := Parameters(s);
    CarriableParameters(s);
    Fragments.ParseFragment(pairs);
    AirportSets.ParseRender(s.departing);
    AirportSets.ParseRender(s.returning);
    assert pairs[2..] == DatePairs("d", s.departingOn) + DatePairs("r", s.returningOn);
    DecodeDatePairs(s.departingOn, s.returningOn);
  }

  /** `search.itinerary()`: the same trip as an itinerary, by replaying
      `departing`/`arriving` calls. Both dates must be present, since the
      conversion reads their components. */
  function Itinerary(s: RoundtripSearch, today: Date): Itineraries.ItinerarySearch
    requires s.departingOn.Some? && s.returningOn.Some?
  {
    ToDatePartsOf(s.departingOn.value, today);
    ToDatePartsOf(s.returningOn.value, today);
    var outbound := Itineraries.Departing(Itineraries.Start, s.departing, PartsOf(s.departingOn.value), today);
    var outbound' := Itineraries.Arriving(outbound, s.returning);
    var back := Itineraries.Departing(outbound', s.returning, PartsOf(s.returningOn.value), today);
    Itineraries.Arriving(back, s.departing)
  }

  /** With both airport sets non-empty, the conversion yields exactly two
      complete legs: out on the departure date, and back with the airports
      swapped on the return date. */
  lemma ItineraryLegs(s: RoundtripSearch, today: Date)
    requires s.departingOn.Some? && s.returningOn.Some?
    requires |s.departing| > 0 && |s.returning| > 0
    ensures Itinerary(s, today).legs == [
      Legs.Leg(AirportSets.FromCodes(s.departing), AirportSets.FromCodes(s.returning), s.departingOn),
      Legs.Leg(AirportSets.FromCodes(s.returning), AirportSets.FromCodes(s.departing), s.returningOn)]
    ensures var legs := Itinerary(s, today).legs; forall i :: 0 <= i < |legs| ==> legs[i].Complete()
  {
    ToDatePartsOf(s.departingOn.value, today);
    ToDatePartsOf(s.returningOn.value, today);
  }

  /** The URL of the converted itinerary succeeds exactly when both airport
      sets are non-empty: an empty set leaves a leg without departures. */
  lemma ItineraryUrlSucceeds(s: RoundtripSearch, today: Date)
    requires s.departingOn.Some? && s.returningOn.Some?
    ensures Itineraries.Url(Itinerary(s, today)).Success? <==> |s.departing| > 0 && |s.returning| > 0
  {
    AirportSets.FromCodesEmpty(s.departing);
    AirportSets.FromCodesEmpty(s.returning);
    ToDatePartsOf(s.departingOn.value, today);
    ToDatePartsOf(s.returningOn.value, today);
    var r := Itinerary(s, today);
    if |s.departing| > 0 && |s.returning| > 0 {
      ItineraryLegs(s, today);
    } else {
      assert |Itineraries.Last(r.legs).departing| == 0;
    }
  }
}

=== FILE: text.dfy ===
/** String helpers: Python's `sep.join(parts)`, its inverse `s.split(sep)`,
    and zero-padded decimal digits as `strftime` writes them. */
module Text {

  /** `sep.join(parts)` for a one-character separator. */
  function Join(parts: seq<string>, sep: char): string
  {
    if |parts| == 0 then ""
    else if |parts| == 1 then parts[0]
    else parts[0] + [sep] + Join(parts[1..], sep)
  }

  /** `s.split(sep)`: the maximal separator-free pieces of `s`, in order. */
  function Split(s: string, sep: char): (r: seq<string>)
    ensures |r| > 0
    ensures forall i :: 0 <= i < |r| ==> sep !in r[i]
  {
    if |s| == 0 then [""]
    else
      var rest := Split(s[1..], sep);
      if s[0] == sep then [""] + rest
      else [[s[0]] + rest[0]] + rest[1..]
  }

  /** Joining the pieces of a split restores the string. */
  lemma {:induction false} JoinSplit(s: string, sep: char)
    ensures Join(Split(s, sep), sep) == s
  {
    if |s| > 0 {
      var rest := Split(s[1..], sep);
      JoinSplit(s[1..], sep);
      if s[0] == sep {
        assert Split(s, sep) == [""] + rest;
        assert ([""] + rest)[1..] == rest;
        assert s == [sep] + s[1..];
      } else {
        var r := Split(s, sep);
        assert r == [[s[0]] + rest[0]] + rest[1..];
        if |rest| == 1 {
          assert s == [s[0]] + s[1..];
        } else {
          assert r[1..] == rest[1..];
          assert Join(rest, sep) == rest[0] + [sep] + Join(rest[1..], sep);
          assert s == [s[0]] + s[1..];
        }
      }
    }
  }

  /** A string without the separator splits into itself. */
  lemma {:induction false} SplitWithoutSeparator(s: string, sep: char)
    requires sep !in s
    ensures Split(s, sep) == [s]
  {
    if |s| > 0 {
      SplitWithoutSeparator(s[1..], sep);
      assert s == [s[0]] + s[1..];
    }
  }

  /** Splitting `a + sep + b` yields `a` followed by the pieces of `b`. */
  lemma {:induction false} SplitAtSeparator(a: string, b: string, sep: char)
    requires sep !in a
    ensures Split(a + [sep] + b, sep) == [a] + Split(b, sep)
  {
    var s := a + [sep] + b;
    if |a| == 0 {
      assert s == [sep] + b;
      assert s[1..] == b;
    } else {
      assert s[1..] == a[1..] + [sep] + b;
      SplitAtSeparator(a[1..], b, sep);
      assert [a[0]] + a[1..] == a;
    }
  }

  /** Splitting undoes joining, for non-empty lists of separator-free parts. */
  lemma {:induction false} SplitJoin(parts: seq<string>, sep: char)
    requires |parts| > 0
    requires forall i :: 0 <= i < |parts| ==> sep !in parts[i]
    ensures Split(Join(parts, sep), sep) == parts
  {
    if |parts| == 1 {
      SplitWithoutSeparator(parts[0], sep);
    } else {
      SplitJoin(parts[1..], sep);
      SplitAtSeparator(parts[0], Join(parts[1..], sep), sep);
      assert [parts[0]] + parts[1..] == parts;
    }
  }

  /** Joining one more part appends the separator and the part. */
  lemma {:induction false} JoinSnoc(parts: seq<string>, last: string, sep: char)
    requires |parts| > 0
    ensures Join(parts + [last], sep) == Join(parts, sep) + [sep] + last
  {
    if |parts| == 1 {
      assert (parts + [last])[1..] == [last];
    } else {
      assert (parts + [last])[1..] == parts[1..] + [last];
      JoinSnoc(parts[1..], last, sep);
    }
  }

  /** A character other than the separator occurs in a join only if it
      occurs in one of the parts. */
  lemma {:induction false} JoinAvoids(parts: seq<string>, sep: char, c: char)
    requires c != sep
    requires forall i :: 0 <= i < |parts| ==> c !in parts[i]
    ensures c !in Join(parts, sep)
  {
    if |parts| > 1 {
      JoinAvoids(parts[1..], sep, c);
    }
  }

  predicate IsDigit(c: char)
  {
    '0' <= c <= '9'
  }

  predicate AllDigits(s: string)
  {
    forall i :: 0 <= i < |s| ==> IsDigit(s[i])
  }

  function Pow10(n: nat): (r: nat)
    ensures r > 0
  {
    if n == 0 then 1 else 10 * Pow10(n - 1)
  }

  function DigitChar(d: nat): (c: char)
    requires d < 10
    ensures IsDigit(c)
  {
    ('0' as int + d) as char
  }

  function DigitValue(c: char): (d: nat)
    requires IsDigit(c)
    ensures d < 10
  {
    c as int - '0' as int
  }

  /** The last `width` decimal digits of `n`, zero-padded on the left. */
  function Pad(n: nat, width: nat): (r: string)
    ensures |r| == width
    ensures AllDigits(r)
  {
    if width == 0 then "" else Pad(n / 10, width - 1) + [DigitChar(n % 10)]
  }

  /** The number a string of decimal digits denotes. */
  function Value(s: string): nat
    requires AllDigits(s)
  {
    if |s| == 0 then 0 else 10 * Value(s[..|s| - 1]) + DigitValue(s[|s| - 1])
  }

  /** Reading back a zero-padded number that fits its width gives the number. */
  lemma {:induction false} ValuePad(n: nat, width: nat)
    requires n < Pow10(width)
    ensures Value(Pad(n, width)) == n
  {
    if width > 0 {
      ValuePad(n / 10, width - 1);
      var p := Pad(n, width);
      assert p[..|p| - 1] == Pad(n / 10, width - 1);
    }
  }

  /** Padding the value of a digit string to its own length restores it. */
  lemma {:induction false} PadValue(s: string)
    requires AllDigits(s)
    ensures Value(s) < Pow10(|s|)
    ensures Pad(Value(s), |s|) == s
  {
    if |s| > 0 {
      var init := s[..|s| - 1];
      PadValue(init);
      var n := Value(s);
      assert n / 10 == Value(init);
      assert n % 10 == DigitValue(s[|s| - 1]);
      assert DigitChar(DigitValue(s[|s| - 1])) == s[|s| - 1];
      assert s == init + [s[|s| - 1]];
    }
  }
}

=== FILE: wrappers.dfy ===
/** Optional values and results that carry either a value or an error,
    standing in for Python's `None` and raised exceptions. */
module Wrappers {

  datatype Option<+T> = None | Some(value: T)

  datatype Result<+T, +E> = Success(value: T) | Failure(error: E)
}
